=== FILE: README.md ===
# Barbershop booking app — verified model of its pure cores

The application is a small appointment-booking front end for a barbershop.
Almost all of it is presentation and pass-through calls to a hosted backend.
This project models the few pieces of self-contained logic in Dafny and proves
their properties:

* **the mock registry** (`db` in `src/data/mockDatabase.ts`): clients,
  appointments (`agendamentos`) and services (`servicos`), with listing,
  lookup by id, appointments by date, and `create`, which numbers records
  `length + 1`. The registry is an immutable `Db` value threaded through the
  operations (module `Registry`). The central invariant `Wf` says every
  collection is numbered 1..n in position order. It holds for the seed data
  and after any sequence of creates.
* **the service catalogue page** (`src/pages/Servicos.tsx`): the category
  buttons, the category-then-search filter, and the duration badge
  "Xh Ymin" / "Xh" / "Ymin" (module `ServiceCatalog`).
* **the booking dialog** (`src/components/ClienteForm.tsx`): the service
  lookup by `Number(selection)`, the "" fallbacks, the record built on
  submit, the form reset, and the fixed service and time-slot lists (module
  `BookingForm`).
* **the working-hours settings** (`src/pages/Configuracoes/Horarios.tsx`):
  the seven-day default, the four single-field edit handlers, and the
  choice between the saved and the default configuration (module
  `WorkingHours`).
* **the agenda's calendar marking** (`src/pages/Agenda.tsx`): the set of
  booked dates, the `split('T')[0]` date key, the `booked` predicate, and the
  upcoming list (module `Agenda`).

Helper modules: `Options` (absent results), `Seqs` (`filter` and `find`
with full specifications), `Text` (decimal rendering and parsing,
`Number(...)`, ASCII lower-casing, `includes`, string `<`), and `ClockTime`
(zero-padded "HH:MM" times).

Inputs the code takes from the environment are parameters. These are the
`Date.now()` booking id, the day's ISO timestamp in the calendar, and the
decoded content of browser storage (`Option<seq<DayConfig>>`).

The agenda marks a day as booked (a yes/no flag); it does not count the
day's appointments.

## Model

| member | source | states |
|---|---|---|
| Seqs.Filter | src/data/mockDatabase.ts:82 | `filter` keeps exactly the satisfying elements: an order-preserving subsequence, every kept element satisfies the predicate, every satisfying element is kept, and the length equals the count |
| Seqs.FilterUnique | src/pages/Servicos.tsx:63-70 | any order-preserving subsequence made of satisfying elements and as long as their count IS the filter's result |
| Seqs.FilterIdempotent | src/pages/Servicos.tsx:63-70 | filtering twice with one predicate equals filtering once |
| Seqs.FindFirst | src/data/mockDatabase.ts:73 | `find` returns the first satisfying element, and returns nothing exactly when no element satisfies |
| Registry.Seed | src/data/mockDatabase.ts:27-67 | the seed holds 2 clients, 2 appointments and 3 services, each collection numbered 1..n |
| Registry.AllClientes | src/data/mockDatabase.ts:72 | the listing holds exactly the stored clients; under the invariant, position i holds id i+1 |
| Registry.GetClienteById | src/data/mockDatabase.ts:73 | the first client with the id is returned; absent exactly when no client carries it |
| Registry.GetClienteByIdIsIndex | src/data/mockDatabase.ts:73-75 | under the invariant, id k finds element k-1 when 1 ≤ k ≤ n, and nothing otherwise |
| Registry.CreateCliente | src/data/mockDatabase.ts:74-78 | the new client has the caller's fields and id = old length + 1; it is appended and returned; earlier clients keep their order; appointments and services are untouched; the invariant is preserved |
| Registry.CreateThenGetCliente | src/data/mockDatabase.ts:73-77 | a created client is found by its id, and every other id's lookup is unchanged |
| Registry.CreateExtendsListings | src/data/mockDatabase.ts:70-90 | after a create, the created collection's listing is the old listing plus the new record; the other listings are unchanged |
| Registry.AllAgendamentos | src/data/mockDatabase.ts:81 | the listing holds exactly the stored appointments; under the invariant, position i holds id i+1 |
| Registry.GetAgendamentosByDate | src/data/mockDatabase.ts:82 | exactly the appointments on the date, as an order-preserving subsequence, as many as there are such appointments |
| Registry.CreateAgendamentoThenByDate | src/data/mockDatabase.ts:82-86 | a created appointment is appended to its own date's query result; other dates' results do not change |
| Registry.CreateAgendamento | src/data/mockDatabase.ts:83-87 | the new appointment has the caller's fields and id = old length + 1; it is appended and returned; clients and services are untouched; the invariant is preserved |
| Registry.NoReferentialCheck | src/data/mockDatabase.ts:83-86 | an appointment naming a client that does not exist is stored anyway |
| Registry.AllServicos | src/data/mockDatabase.ts:90 | the listing holds exactly the stored services; under the invariant, position i holds id i+1 |
| Registry.GetServicoById | src/data/mockDatabase.ts:91 | the first service with the id is returned; absent exactly when none carries it |
| Registry.GetServicoByIdIsIndex | src/data/mockDatabase.ts:63-67 | under the invariant, service id k is element k-1 when 1 ≤ k ≤ n, and absent otherwise |
| Registry.RunPreservesInvariant | src/data/mockDatabase.ts:70-93 | after any sequence of creates: the invariant holds, ids are strictly increasing (so unique), services are unchanged, and earlier records stay a prefix |
| Text.Contains | src/pages/Servicos.tsx:69 | `includes` is true exactly when the needle occurs at some position of the haystack |
| Text.NatToString | src/pages/Servicos.tsx:80-81 | a whole number renders as a non-empty run of digits with no leading zero (its value is the number, by Text.DecimalRoundTrip) |
| Text.IntToString | src/pages/Servicos.tsx:80-81 | a non-negative number renders as digits whose decimal value is the number; a negative one as '-' followed by digits whose value is its magnitude |
| Text.ToLower | src/pages/Servicos.tsx:69 | same length; no upper-case ASCII letter survives; each upper-case letter becomes its lower-case partner and every other character is kept |
| Text.JsNumber | src/components/ClienteForm.tsx:63 | `Number("")` is 0; a non-empty digit string is its decimal value; any string with a non-digit is NaN |
| Text.JsNumberOfRendered | src/components/ClienteForm.tsx:155 | `Number(String(n))` is n for every whole n ≥ 0 |
| Text.DecimalRoundTrip | src/pages/Servicos.tsx:80-81 | reading a rendered whole number back gives the number |
| ClockTime.StringOrderIsClockOrder | src/components/ClienteForm.tsx:31-44 | for zero-padded "HH:MM" strings, string `<` agrees with minutes-since-midnight order |
| ServiceCatalog.CategoriesCoverEnum | src/pages/Servicos.tsx:13-18 | the first button is "todos"; every category has its own button whose id is the category's stored string; all button ids differ |
| ServiceCatalog.FilterServices | src/pages/Servicos.tsx:58-74 | the result equals one `filter` of the list by "passes every active filter" (so duplicates are kept as often as they occur); it is an order-preserving subsequence; with a category selected, every kept service is in it; with a query, every kept name contains the query ignoring case; every service passing both active filters is kept |
| ServiceCatalog.FilterServicesIsOneFilter | src/pages/Servicos.tsx:58-74 | the two-stage filter equals one filter by "passes every active filter" |
| ServiceCatalog.FilterServicesDefaultIsIdentity | src/pages/Servicos.tsx:59-67 | with "todos" and an empty query, every service is shown in its loaded order |
| ServiceCatalog.FilterServicesIdempotent | src/pages/Servicos.tsx:58-74 | re-filtering the shown list with the same settings shows the same list |
| ServiceCatalog.FilterServicesCaseInsensitive | src/pages/Servicos.tsx:67-71 | queries that lower-case alike show the same services |
| ServiceCatalog.UnknownCategoryShowsNothing | src/pages/Servicos.tsx:62-64 | a selected id that is neither "todos" nor a category shows nothing |
| ServiceCatalog.JsRem | src/pages/Servicos.tsx:78 | JavaScript `%`: the dividend equals divisor × (quotient truncated toward zero) + remainder; the remainder is below the divisor in size, has the dividend's sign, and equals Euclidean `%` for non-negative dividends |
| ServiceCatalog.FormatDuration | src/pages/Servicos.tsx:76-82 | under 60 minutes: "<m>min"; whole hours: "<h>h"; otherwise "<h>h <r>min"; between -60 and 0: "-<m>min"; for any negative duration, `Math.floor` makes the hours non-positive, so only the truncated remainder shows: "0min" on a multiple of 60, otherwise "-<(-m) mod 60>min" |
| ServiceCatalog.FormatDurationRoundTrip | src/pages/Servicos.tsx:76-82 | the badge text of every non-negative duration decodes back to that duration, so different durations get different badges |
| ServiceCatalog.DurationSplit | src/pages/Servicos.tsx:77-78 | hours·60 + leftover minutes = duration, and 0 ≤ leftover < 60, for every non-negative duration |
| ServiceCatalog.DurationSplitFailsBelowZero | src/pages/Servicos.tsx:77-78 | for -30 minutes, `Math.floor(m/60)·60 + m % 60` is -90, not -30: the split holds only for non-negative durations |
| BookingForm.SelectedService | src/components/ClienteForm.tsx:63 | the selected service is the first catalogue entry whose id equals `Number(selection)`; none when that is NaN |
| BookingForm.Submit | src/components/ClienteForm.tsx:59-91 | the booking carries the given id; `nome`, `data` and `horario` are copied verbatim; when `Number(selection)` names a catalogue entry, the booking's service name and price are that entry's; otherwise both are ""; the form is reset to six empty fields |
| BookingForm.SubmitWithOfferedService | src/components/ClienteForm.tsx:63-71 | choosing the option `String(id)` books that service's name and price |
| BookingForm.SubmitWithoutService | src/components/ClienteForm.tsx:63-71 | with no service chosen, name and price are "" |
| BookingForm.CatalogueIdsDistinct | src/components/ClienteForm.tsx:25-29 | catalogue ids are distinct (1, 2, 3), and so are the option values `String(id)`, so the lookup is unambiguous; the catalogue equals the registry's service seed |
| BookingForm.SlotsOrdered | src/components/ClienteForm.tsx:31-44 | every slot is a zero-padded "HH:MM" and the list is strictly increasing under string `<` |
| WorkingHours.DefaultConfig | src/pages/Configuracoes/Horarios.tsx:18-33 | one entry per weekday (7), each inactive, 09:00–18:00, 30-minute interval |
| WorkingHours.DefaultHoursOrdered | src/pages/Configuracoes/Horarios.tsx:28-33 | the default opening time is a valid time, earlier than the valid closing time |
| WorkingHours.InitialConfig | src/pages/Configuracoes/Horarios.tsx:36-39 | the page starts from the saved configuration when there is one, else from `configPadrao`, taken as the unedited seven-day default |
| WorkingHours.MountEffect | src/pages/Configuracoes/Horarios.tsx:42-47 | with a saved configuration, the state becomes exactly what the initial state would have been; with none, the state is untouched |
| WorkingHours.Save | src/pages/Configuracoes/Horarios.tsx:49-50 | after saving, storage holds a configuration and the next visit starts from exactly the saved one |
| WorkingHours.InitialStateIsStable | src/pages/Configuracoes/Horarios.tsx:36-55 | the mount effect does not change the initial state, and a saved configuration is what the next visit starts from |
| WorkingHours.ApplyEdit | src/pages/Configuracoes/Horarios.tsx:73-118 | an edit at day i writes its field of entry i; the other fields of entry i, all other entries, and the length are unchanged |
| WorkingHours.EditUndo | src/pages/Configuracoes/Horarios.tsx:73-118 | writing back the overwritten value restores the configuration |
| WorkingHours.EditIdempotent | src/pages/Configuracoes/Horarios.tsx:73-118 | repeating an edit changes nothing further |
| WorkingHours.EditsCommute | src/pages/Configuracoes/Horarios.tsx:73-118 | edits to different days, or to different fields of one day, can be applied in either order |
| WorkingHours.EditsPreserveShape | src/pages/Configuracoes/Horarios.tsx:66-118 | any sequence of edits keeps the length, so a list with a card for every weekday keeps one |
| Agenda.BookedDates | src/pages/Agenda.tsx:40-42 | a date is in the set exactly when some appointment is on it; the set is no larger than the list |
| Agenda.DateKey | src/pages/Agenda.tsx:47 | the key is the prefix of the timestamp before its first 'T' (the whole string when there is none) |
| Agenda.DateKeyOfTimestamp | src/pages/Agenda.tsx:47 | the key of "<date>T<time>" is the date whenever the date has no 'T' |
| Agenda.Booked | src/pages/Agenda.tsx:46-49 | a calendar day is booked exactly when some appointment's date equals the day's date key |
| Agenda.BookedIff | src/pages/Agenda.tsx:45-50 | a day whose timestamp starts with "YYYY-MM-DD" is booked exactly when some appointment is on that date |
| Agenda.UpcomingBooksTwoDays | src/pages/Agenda.tsx:9-42 | the example data books exactly 2024-03-20 and 2024-03-21; the two appointments on 03-20 count once |
| Agenda.Cards | src/pages/Agenda.tsx:67-86 | one card per appointment, in list order, with no sorting or date filtering, showing its client, service, price and time |
| Agenda.UpcomingCardsKeyed | src/pages/Agenda.tsx:9-34 | the example list renders three cards keyed 1, 2, 3 in order |

## Left out

- Backend calls are not modelled: loading services ordered by name, auth, storage uploads, and `Configuracoes/Servicos.tsx` inserts. These are I/O. The filter takes the loaded list as input.
- Currency formatting (`Intl.NumberFormat`, `formatPrice`) and the `parseFloat`/`parseInt` calls are not modelled. They are locale and floating-point library behaviour, so `Service.price` is carried as data only.
- `Date`, `toISOString`, time zones and `toLocaleDateString` are not modelled. The calendar's day arrives as its ISO timestamp string, and the cards' date text is not modelled.
- The booking id from `Date.now()` is a parameter. Toasts, dialog state and navigation are not modelled.
- Text.ToLower: lowercases ASCII letters only. Unicode case mapping is not modelled, so the search's case-insensitivity covers ASCII letters only.
- Text.JsNumber: handles only "", runs of decimal digits, and NaN. Whitespace, signs, decimal points, exponents and hex are treated as NaN. The select only ever produces "" or `String(id)`, which are covered.
- Text.NatToString: renders every whole number in plain decimal. JavaScript switches to exponent notation at 1e21; that is not modelled.
- ServiceCatalog.DurationSplit: covers non-negative durations only. For negative durations `Math.floor(m/60)*60 + m%60 == m` fails in the program itself: -30 gives -90 (ServiceCatalog.DurationSplitFailsBelowZero). Nothing in the program keeps durations non-negative.
- ServiceCatalog.FormatDuration: durations are whole numbers of minutes. Fractional minutes are not modelled.
- WorkingHours.ApplyEdit: the interval handler's `Number(e.target.value)` conversion is not modelled. The handler receives the converted whole number, and NaN or fractional input is not modelled.
- WorkingHours.ApplyEdit: edits are functional single-field updates. The source's `[...config]` copies only the list, so each edit also mutates the shared day object. That object may be the default configuration itself. This aliasing is not modelled.
- WorkingHours.ApplyEdit: the time and interval inputs are shown only for active days. The model accepts every edit on every day.
- WorkingHours.InitialConfig: when nothing is saved, the page starts from the module-level `configPadrao` array itself, and the edit handlers write into its day objects through the shallow `[...config]` copy. So an unsaved edit changes the default that a later visit in the same session starts from. The model's default is an immutable value, and this is not modelled.
- WorkingHours.InitialConfig: storage holds the decoded configuration or nothing. `JSON.parse` failures on malformed storage are not modelled.
- Registry.CreateCliente / Registry.CreateAgendamento: TypeScript lets a non-literal argument carry extra properties, and the object spread stores them. The model's records have exactly the declared fields, and no modelled operation reads an extra property. Ids beyond 2^53 are not modelled.
- Registry.AllClientes / Registry.GetClienteById / Registry.CreateCliente / Registry.GetAgendamentosByDate: the program hands out live references. `getAll` copies only the list, and `getById`, `getByDate` and `create` return the stored objects themselves (`getByDate` in a new array), so a caller that mutates a returned record changes the registry and can break `Wf`. The model's records are values, so this aliasing is not modelled. The same holds for Registry.AllAgendamentos, Registry.CreateAgendamento, Registry.AllServicos and Registry.GetServicoById.
- Text.StrLess: compares characters, which in Dafny are Unicode scalar values. JavaScript compares UTF-16 code units. The two orders differ only for characters outside the Basic Multilingual Plane, and the model compares only times and dates.
- Appointment sorting, grouping by date, the upcoming/past partition, period statistics, price parsing and summing, deletion, and conflict checks are not modelled. None of them appear in src/data/mockDatabase.ts, src/pages/Servicos.tsx, src/components/ClienteForm.tsx, src/pages/Configuracoes/Horarios.tsx or src/pages/Agenda.tsx.
- The remaining pages are pure layout, routing or authentication screens and are not modelled. These are the dashboard, finance, clients, notifications, personalisation, account, customer profile, customer bookings, customer scheduling, customer login, and the layouts' navigation highlighting.

=== FILE: agenda.dfy ===
/** The agenda page: the list of upcoming appointments and the calendar's
    "booked" marking of days that have at least one appointment. The
    calendar hands each day over as the ISO timestamp of its instant
    (`toISOString()`); computing that timestamp is not part of this model. */
module Agenda {
  import opened Text

  datatype Item = Item(
    id: int, cliente: string, servico: string, data: string,
    horario: string, valor: string)

  /** `proximosAgendamentos`, the page's example data. */
  function Upcoming(): seq<Item>
  {
    [ Item(1, "Maria Silva", "Corte de Cabelo", "2024-03-20", "14:30", "R$ 50,00"),
      Item(2, "João Santos", "Barba", "2024-03-20", "15:30", "R$ 30,00"),
      Item(3, "Ana Oliveira", "Corte e Barba", "2024-03-21", "10:00", "R$ 70,00") ]
  }

  /** `datasComAgendamento`: the set of the items' dates. */
  function BookedDates(items: seq<Item>): (dates: set<string>)
    ensures forall d :: d in dates <==> exists i :: 0 <= i < |items| && items[i].data == d
    ensures |dates| <= |items|
  {
    if |items| == 0 then {}
    else
      var rest := BookedDates(items[1..]);
      assert forall i :: 1 <= i < |items| ==> items[i] == items[1..][i - 1];
      {items[0].data} + rest
  }

  /** `iso.split('T')[0]`: the part before the first 'T', or all of it. */
  function DateKey(iso: string): (k: string)
    ensures 'T' !in k
    ensures k <= iso
    ensures |k| < |iso| ==> iso[|k|] == 'T'
  {
    if |iso| == 0 || iso[0] == 'T' then ""
    else [iso[0]] + DateKey(iso[1..])
  }

  /** `modifiers.booked`: the day is marked when its date key is one of the
      appointments' dates. */
  function Booked(items: seq<Item>, iso: string): (b: bool)
    ensures b <==> exists i :: 0 <= i < |items| && items[i].data == DateKey(iso)
  {
    DateKey(iso) in BookedDates(items)
  }

  /** A "YYYY-MM-DD" date string. */
  predicate IsIsoDate(d: string)
  {
    && |d| == 10
    && IsDigit(d[0]) && IsDigit(d[1]) && IsDigit(d[2]) && IsDigit(d[3]) && d[4] == '-'
    && IsDigit(d[5]) && IsDigit(d[6]) && d[7] == '-' && IsDigit(d[8]) && IsDigit(d[9])
  }

  /** The date key of "<date>T<time>" is the date, whenever the date has no
      'T' in it, as "YYYY-MM-DD" never does. */
  lemma {:induction false} DateKeyOfTimestamp(date: string, time: string)
    requires 'T' !in date
    ensures DateKey(date + "T" + time) == date
  {
    if |date| == 0 {
      assert date + "T" + time == "T" + time;
    } else {
      assert (date + "T" + time)[1..] == date[1..] + "T" + time;
      assert date[0] != 'T';
      DateKeyOfTimestamp(date[1..], time);
      assert date == [date[0]] + date[1..];
    }
  }

  lemma IsoDateHasNoT(d: string)
    requires IsIsoDate(d)
    ensures 'T' !in d
  {
  }

  /** A calendar day whose timestamp starts with date `d` is marked booked
      exactly when some appointment is on `d`. */
  lemma BookedIff(items: seq<Item>, d: string, time: string)
    requires IsIsoDate(d)
    ensures Booked(items, d + "T" + time) <==> exists i :: 0 <= i < |items| && items[i].data == d
  {
    IsoDateHasNoT(d);
    DateKeyOfTimestamp(d, time);
  }

  /** The example data books two days: appointments sharing a date count once. */
  lemma UpcomingBooksTwoDays()
    ensures BookedDates(Upcoming()) == {"2024-03-20", "2024-03-21"}
    ensures |BookedDates(Upcoming())| == 2
  {
  }

  /** What one card of the upcoming list shows (the localised date text is
      not part of this model). */
  datatype Card = Card(key: int, cliente: string, servico: string, valor: string, horario: string)

  /** The upcoming list: one card per item, in the items' order, with no
      sorting and no filtering by date. */
  function Cards(items: seq<Item>): (cards: seq<Card>)
    ensures |cards| == |items|
    ensures forall i :: 0 <= i < |items| ==>
              cards[i].key == items[i].id && cards[i].cliente == items[i].cliente
              && cards[i].servico == items[i].servico && cards[i].valor == items[i].valor
              && cards[i].horario == items[i].horario
  {
    seq(|items|, i requires 0 <= i < |items| =>
      Card(items[i].id, items[i].cliente, items[i].servico, items[i].valor, items[i].horario))
  }

  /** The example list renders three cards with distinct keys, in id order. */
  lemma UpcomingCardsKeyed()
    ensures |Cards(Upcoming())| == 3
    ensures forall i :: 0 <= i < 3 ==> Cards(Upcoming())[i].key == i + 1
  {
  }
}

=== FILE: booking.dfy ===
/** The "new client" booking dialog: its fixed service and time-slot lists,
    and what submitting the form builds from the six form fields. */
module BookingForm {
  import opened Options
  import opened Seqs
  import opened Text
  import ClockTime
  import Registry

  /** The six text fields of the form. `servico` holds the selected
      service id as a string, or "" when nothing is selected. */
  datatype FormData = FormData(
    nome: string, telefone: string, email: string,
    servico: string, data: string, horario: string)

  /** The form as it is opened, and as it is left after a submit. */
  const EmptyForm: FormData := FormData("", "", "", "", "", "")

  /** The record a submit builds. */
  datatype Booking = Booking(
    id: int, cliente: string, servico: string, data: string,
    horario: string, valor: string)

  /** The services offered in the select. */
  function Catalogue(): seq<Registry.Servico>
  {
    [ Registry.Servico(1, "Corte de Cabelo", "30min", "R$ 50,00"),
      Registry.Servico(2, "Barba", "20min", "R$ 30,00"),
      Registry.Servico(3, "Corte e Barba", "50min", "R$ 70,00") ]
  }

  /** The selectable times. */
  function Slots(): seq<string>
  {
    [ "09:00", "09:30", "10:00", "10:30", "11:00", "11:30",
      "14:00", "14:30", "15:00", "15:30", "16:00", "16:30" ]
  }

  /** `servicos.find(s => s.id === Number(selection))`. A selection that is
      not a number (NaN) equals no id. */
  function SelectedService(selection: string): (r: Option<Registry.Servico>)
    ensures JsNumber(selection).None? ==> r.None?
    ensures JsNumber(selection).Some? ==> FirstMatch(Registry.ServicoIdIs(JsNumber(selection).value), Catalogue(), r)
  {
    match JsNumber(selection)
    case None => None
    case Some(n) => FindFirst(Registry.ServicoIdIs(n), Catalogue())
  }

  /** `handleSubmit`: builds the booking and resets the form. The id is the
      caller-supplied clock reading (`Date.now()`). Service name and price
      come from the selected service, or are "" when none matches. */
  function Submit(form: FormData, now: int): (r: (Booking, FormData))
    ensures r.0.id == now
    ensures r.0.cliente == form.nome && r.0.data == form.data && r.0.horario == form.horario
    ensures SelectedService(form.servico).Some? ==>
              && r.0.servico == SelectedService(form.servico).value.nome
              && r.0.valor == SelectedService(form.servico).value.valor
    ensures SelectedService(form.servico).None? ==> r.0.servico == "" && r.0.valor == ""
    ensures r.1 == EmptyForm
  {
    var selected := SelectedService(form.servico);
    var nome := selected.GetOr(NoService).nome;
    var valor := selected.GetOr(NoService).valor;
    (Booking(now, form.nome, nome, form.data, form.horario, valor), EmptyForm)
  }

  /** Stands in for an unmatched selection: `undefined?.nome || ""` is "". */
  const NoService: Registry.Servico := Registry.Servico(0, "", "", "")

  /** The select offers `String(id)` for each service; choosing it books that
      service's name and price. */
  lemma SubmitWithOfferedService(form: FormData, now: int, i: nat)
    requires i < |Catalogue()|
    requires form.servico == NatToString(Catalogue()[i].id)
    ensures Submit(form, now).0.servico == Catalogue()[i].nome
    ensures Submit(form, now).0.valor == Catalogue()[i].valor
  {
    JsNumberOfRendered(Catalogue()[i].id);
  }

  /** With nothing selected, `Number("")` is 0, which no service carries, so
      name and price fall back to "". */
  lemma SubmitWithoutService(form: FormData, now: int)
    requires form.servico == ""
    ensures Submit(form, now).0.servico == "" && Submit(form, now).0.valor == ""
  {
  }

  /** Catalogue ids are distinct, so the lookup is unambiguous; they are
      1..3 in order, and the catalogue is the registry's service seed. */
  lemma CatalogueIdsDistinct()
    ensures forall i, j :: 0 <= i < j < |Catalogue()| ==> Catalogue()[i].id != Catalogue()[j].id
    ensures Registry.IdsSequential(Catalogue(), Registry.ServicoId)
    ensures Catalogue() == Registry.Seed().servicos
    ensures forall i, j :: 0 <= i < j < |Catalogue()| ==>
              NatToString(Catalogue()[i].id) != NatToString(Catalogue()[j].id)
  {
    forall i, j | 0 <= i < j < |Catalogue()|
      ensures NatToString(Catalogue()[i].id) != NatToString(Catalogue()[j].id)
    {
      if NatToString(Catalogue()[i].id) == NatToString(Catalogue()[j].id) {
        NatToStringInjective(Catalogue()[i].id, Catalogue()[j].id);
      }
    }
  }

  /** Every slot is a zero-padded "HH:MM" time and the list is strictly
      increasing under JavaScript's string `<`, which for such strings is the
      clock order. */
  lemma SlotsOrdered()
    ensures forall i :: 0 <= i < |Slots()| ==> ClockTime.WellFormed(Slots()[i])
    ensures forall i, j :: 0 <= i < j < |Slots()| ==> StrLess(Slots()[i], Slots()[j])
    ensures forall i, j :: 0 <= i < j < |Slots()| ==> Slots()[i] != Slots()[j]
  {
    var s := Slots();
    SlotsWellFormed();
    SlotsAdjacentOrdered();
    forall i, j | 0 <= i < j < |s|
      ensures StrLess(s[i], s[j]) && s[i] != s[j]
    {
      AdjacentOrderedChain(s, i, j);
      StrLessIrreflexive(s[i]);
    }
  }

  lemma SlotsWellFormed()
    ensures forall i :: 0 <= i < |Slots()| ==> ClockTime.WellFormed(Slots()[i])
  {
  }

  /** Neighbouring slots compare in order under string `<`. */
  lemma SlotsAdjacentOrdered()
    ensures forall i :: 0 <= i < |Slots()| - 1 ==> StrLess(Slots()[i], Slots()[i + 1])
  {
    SlotNeighbours();
  }

  lemma SlotNeighbours()
    ensures StrLess("09:00", "09:30")
    ensures StrLess("09:30", "10:00")
    ensures StrLess("10:00", "10:30")
    ensures StrLess("10:30", "11:00")
    ensures StrLess("11:00", "11:30")
    ensures StrLess("11:30", "14:00")
    ensures StrLess("14:00", "14:30")
    ensures StrLess("14:30", "15:00")
    ensures StrLess("15:00", "15:30")
    ensures StrLess("15:30", "16:00")
    ensures StrLess("16:00", "16:30")
  {
  }

  /** A list whose neighbours are in order is in order. */
  lemma {:induction false} AdjacentOrderedChain(s: seq<string>, i: nat, j: nat)
    requires forall k :: 0 <= k < |s| - 1 ==> StrLess(s[k], s[k + 1])
    requires i < j < |s|
    ensures StrLess(s[i], s[j])
    decreases j - i
  {
    if j > i + 1 {
      AdjacentOrderedChain(s, i + 1, j);
      StrLessTransitive(s[i], s[i + 1], s[j]);
    }
  }
}

=== FILE: catalog.dfy ===
/** The public service catalogue page: the category buttons, the
    category-then-search filter over the loaded services, and the duration
    badge text. */
module ServiceCatalog {
  import opened Options
  import opened Seqs
  import opened Text

  datatype Category = Cabelo | Barba | Outros

  /** The string a category is stored and compared as. */
  function CategoryId(c: Category): string
  {
    match c
    case Cabelo => "cabelo"
    case Barba => "barba"
    case Outros => "outros"
  }

  /** A catalogue row. `price` is only ever passed to the currency
      formatter, which is not part of this model, so it is kept as data. */
  datatype Service = Service(
    id: string, name: string, description: string, price: real,
    duration: int, category: Category, createdAt: string, updatedAt: string,
    imageUrl: Option<string>)

  /** The id that selects no category filter. */
  const AllId: string := "todos"

  /** The category buttons, as (id, label) pairs, in display order. */
  function Categories(): seq<(string, string)>
  {
    [("todos", "Todos"), ("cabelo", "Cabelo"), ("barba", "Barba"), ("outros", "Outros")]
  }

  /** The buttons are the "all" button followed by one button per category,
      so every button selects a distinct filter. */
  lemma CategoriesCoverEnum()
    ensures Categories()[0].0 == AllId
    ensures forall c: Category :: CategoryButton(c) < |Categories()| && Categories()[CategoryButton(c)].0 == CategoryId(c)
    ensures forall i, j :: 0 <= i < j < |Categories()| ==> Categories()[i].0 != Categories()[j].0
  {
  }

  /** The position of a category's button. */
  function CategoryButton(c: Category): (i: nat)
    ensures 1 <= i
  {
    match c
    case Cabelo => 1
    case Barba => 2
    case Outros => 3
  }

  function InCategory(selected: string): Service -> bool
  {
    (s: Service) => CategoryId(s.category) == selected
  }

  /** Case-insensitive substring match of the query in the service name. */
  predicate NameMatches(s: Service, query: string)
  {
    Contains(ToLower(s.name), ToLower(query))
  }

  function MatchesQuery(query: string): Service -> bool
  {
    (s: Service) => NameMatches(s, query)
  }

  /** A service is shown when it passes every filter that is switched on:
      the category filter unless "todos" is selected, the search filter
      unless the query is empty. */
  predicate Shown(s: Service, selected: string, query: string)
  {
    (selected == AllId || CategoryId(s.category) == selected)
    && (query == "" || NameMatches(s, query))
  }

  function ShownBy(selected: string, query: string): Service -> bool
  {
    (s: Service) => Shown(s, selected, query)
  }

  /** `filterServices`: the category filter, then the search filter. */
  function FilterServices(services: seq<Service>, selected: string, query: string): (r: seq<Service>)
    ensures SubseqOf(r, services)
    ensures forall i :: 0 <= i < |r| ==> selected != AllId ==> CategoryId(r[i].category) == selected
    ensures forall i :: 0 <= i < |r| ==> query != "" ==> NameMatches(r[i], query)
    ensures forall i :: 0 <= i < |services| && Shown(services[i], selected, query) ==> services[i] in r
    ensures r == Filter(ShownBy(selected, query), services)
  {
    var byCategory := if selected != AllId then Filter(InCategory(selected), services) else services;
    var byQuery := if query != "" then Filter(MatchesQuery(query), byCategory) else byCategory;
    FilterServicesIsOneFilter(services, selected, query);
    byQuery
  }

  /** The two-stage filter equals a single filter by `Shown`. */
  lemma FilterServicesIsOneFilter(services: seq<Service>, selected: string, query: string)
    ensures (var byCategory := if selected != AllId then Filter(InCategory(selected), services) else services;
             if query != "" then Filter(MatchesQuery(query), byCategory) else byCategory)
            == Filter(ShownBy(selected, query), services)
  {
    var shown := ShownBy(selected, query);
    if selected != AllId && query != "" {
      FilterFusion(InCategory(selected), MatchesQuery(query), shown, services);
    } else if selected != AllId {
      FilterCongruent(InCategory(selected), shown, services);
    } else if query != "" {
      FilterCongruent(MatchesQuery(query), shown, services);
    } else {
      FilterKeepsAll(shown, services);
    }
  }

  /** With "todos" and an empty query the whole list is shown. */
  lemma FilterServicesDefaultIsIdentity(services: seq<Service>)
    ensures FilterServices(services, AllId, "") == services
  {
  }

  /** Re-running the filter on its own output changes nothing. */
  lemma FilterServicesIdempotent(services: seq<Service>, selected: string, query: string)
    ensures FilterServices(FilterServices(services, selected, query), selected, query)
            == FilterServices(services, selected, query)
  {
    var r := FilterServices(services, selected, query);
    FilterServicesIsOneFilter(services, selected, query);
    FilterServicesIsOneFilter(r, selected, query);
    FilterIdempotent(ShownBy(selected, query), services);
  }

  /** The search ignores letter case: queries that lower-case alike select
      the same services. */
  lemma FilterServicesCaseInsensitive(services: seq<Service>, selected: string, q1: string, q2: string)
    requires ToLower(q1) == ToLower(q2)
    ensures FilterServices(services, selected, q1) == FilterServices(services, selected, q2)
  {
    FilterServicesIsOneFilter(services, selected, q1);
    FilterServicesIsOneFilter(services, selected, q2);
    assert q1 == "" <==> q2 == "";
    FilterCongruent(ShownBy(selected, q1), ShownBy(selected, q2), services);
  }

  /** A selected id that names no category leaves nothing to show. */
  lemma UnknownCategoryShowsNothing(services: seq<Service>, selected: string, query: string)
    requires selected != AllId
    requires forall c: Category :: CategoryId(c) != selected
    ensures FilterServices(services, selected, query) == []
  {
  }

  // ------------------------------------------------------------- durations

  /** JavaScript's `%` for a positive divisor: the remainder takes the sign of
      the dividend (truncating division). */
  function JsRem(a: int, b: int): (r: int)
    requires b > 0
    ensures a >= 0 ==> r == a % b
    ensures -b < r < b && (r == 0 || (r < 0 <==> a < 0))
    ensures a == b * (if a >= 0 then a / b else -((-a) / b)) + r
  {
    if a >= 0 then a % b else -((-a) % b)
  }

  /** `formatDuration(minutes)`: hours are `Math.floor(minutes / 60)`, the
      rest is `minutes % 60`; "<h>h <m>min", "<h>h" or "<m>min". */
  function FormatDuration(minutes: int): (s: string)
    ensures 0 <= minutes < 60 ==> s == NatToString(minutes) + "min"
    ensures minutes >= 60 && minutes % 60 == 0 ==> s == NatToString(minutes / 60) + "h"
    ensures minutes >= 60 && minutes % 60 != 0 ==>
              s == NatToString(minutes / 60) + "h " + NatToString(minutes % 60) + "min"
    ensures -60 < minutes < 0 ==> s == "-" + NatToString(-minutes) + "min"
    ensures minutes < 0 ==>
              s == (if (-minutes) % 60 == 0 then "0" else "-" + NatToString((-minutes) % 60)) + "min"
  {
    var hours := minutes / 60;   // Euclidean division by a positive divisor is Math.floor
    var mins := JsRem(minutes, 60);
    if hours > 0 then
      if mins > 0 then IntToString(hours) + "h " + IntToString(mins) + "min"
      else IntToString(hours) + "h"
    else
      IntToString(mins) + "min"
  }

  /** Reference reader for the three shapes the formatter produces, used to
      show that the badge text determines the duration: a number, then
      "min", "h", or "h " and a number of minutes. */
  function ParseDuration(s: string): Option<nat>
  {
    var n := DigitPrefixLen(s);
    if n == 0 then None else ParseAfterNumber(DecimalValue(s[..n]), s[n..])
  }

  function ParseAfterNumber(v: nat, rest: string): Option<nat>
  {
    if rest == "min" then Some(v)
    else if rest == "h" then Some(v * 60)
    else if |rest| > 2 && rest[..2] == "h " then
      match ParseMinutes(rest[2..])
      case Some(m) => Some(v * 60 + m)
      case None => None
    else None
  }

  /** "<m>min". */
  function ParseMinutes(t: string): Option<nat>
  {
    var k := DigitPrefixLen(t);
    if k > 0 && t[k..] == "min" then Some(DecimalValue(t[..k])) else None
  }

  /** Every non-negative duration is read back from its badge text, so
      distinct durations never share a badge. */
  lemma FormatDurationRoundTrip(minutes: nat)
    ensures ParseDuration(FormatDuration(minutes)) == Some(minutes)
  {
    if minutes < 60 {
      RoundTripUnderAnHour(minutes);
    } else if minutes % 60 == 0 {
      RoundTripWholeHours(minutes);
    } else {
      RoundTripHoursAndMinutes(minutes);
    }
  }

  lemma RoundTripUnderAnHour(minutes: nat)
    requires minutes < 60
    ensures ParseDuration(FormatDuration(minutes)) == Some(minutes)
  {
    ReadDigitsThen(NatToString(minutes), "min");
    DecimalRoundTrip(minutes);
  }

  lemma RoundTripWholeHours(minutes: nat)
    requires minutes >= 60 && minutes % 60 == 0
    ensures ParseDuration(FormatDuration(minutes)) == Some(minutes)
  {
    ReadDigitsThen(NatToString(minutes / 60), "h");
    DecimalRoundTrip(minutes / 60);
  }

  lemma RoundTripHoursAndMinutes(minutes: nat)
    requires minutes >= 60 && minutes % 60 != 0
    ensures ParseDuration(FormatDuration(minutes)) == Some(minutes)
  {
    var h, m := minutes / 60, minutes % 60;
    var hs, ms := NatToString(h), NatToString(m);
    assert FormatDuration(minutes) == hs + "h " + ms + "min";
    ReadHoursAndMinutes(hs, ms);
    DecimalRoundTrip(h);
    DecimalRoundTrip(m);
    assert h * 60 + m == minutes;
  }

  /** "<digits>h <digits>min" is read as hours and minutes. */
  lemma ReadHoursAndMinutes(hs: string, ms: string)
    requires |hs| > 0 && AllDigits(hs) && |ms| > 0 && AllDigits(ms)
    ensures ParseDuration(hs + "h " + ms + "min") == Some(DecimalValue(hs) * 60 + DecimalValue(ms))
  {
    var t := ms + "min";
    ConcatAssoc(hs, "h ", ms, "min");
    ReadDigitsThen(hs, "h " + t);
    ReadAfterHoursSpace(DecimalValue(hs), t);
    ReadMinutes(ms);
  }

  lemma ConcatAssoc(a: string, b: string, c: string, d: string)
    ensures a + b + c + d == a + (b + (c + d))
  {
  }

  /** After "<v>h " comes the minutes part. */
  lemma ReadAfterHoursSpace(v: nat, t: string)
    ensures ParseAfterNumber(v, "h " + t)
            == (if ParseMinutes(t).Some? then Some(v * 60 + ParseMinutes(t).value) else None)
  {
    var rest := "h " + t;
    assert rest[0] == 'h' && rest[1] == ' ' && |rest| == |t| + 2;
    assert rest[..2] == "h " && rest[2..] == t;
  }

  /** A run of digits followed by a non-digit is read as its value. */
  lemma ReadDigitsThen(ds: string, rest: string)
    requires |ds| > 0 && AllDigits(ds)
    requires |rest| > 0 && !IsDigit(rest[0])
    ensures ParseDuration(ds + rest) == ParseAfterNumber(DecimalValue(ds), rest)
  {
    DigitPrefixOfConcat(ds, rest);
  }

  lemma ReadMinutes(ms: string)
    requires |ms| > 0 && AllDigits(ms)
    ensures ParseMinutes(ms + "min") == Some(DecimalValue(ms))
  {
    DigitPrefixOfConcat(ms, "min");
  }

  /** Below zero the split does not add up: `Math.floor` rounds the hours
      down while `%` keeps the dividend's sign, so -30 minutes reads back as
      -90. */
  lemma DurationSplitFailsBelowZero()
    ensures (-30 / 60) * 60 + JsRem(-30, 60) == -90
  {
  }

  /** Hours and leftover minutes split a non-negative duration exactly. */
  lemma DurationSplit(minutes: nat)
    ensures (minutes / 60) * 60 + JsRem(minutes, 60) == minutes
    ensures 0 <= JsRem(minutes, 60) < 60
  {
  }
}

=== FILE: clocktime.dfy ===
/** Times of day as the pages store them: zero-padded 24-hour "HH:MM"
    strings, compared as strings. */
module ClockTime {
  import opened Text

  /** "HH:MM" with two digits each, hours below 24 and minutes below 60. */
  predicate WellFormed(s: string)
  {
    && |s| == 5
    && IsDigit(s[0]) && IsDigit(s[1]) && s[2] == ':' && IsDigit(s[3]) && IsDigit(s[4])
    && 10 * DigitValue(s[0]) + DigitValue(s[1]) < 24
    && 10 * DigitValue(s[3]) + DigitValue(s[4]) < 60
  }

  function Hours(s: string): nat
    requires WellFormed(s)
  {
    10 * DigitValue(s[0]) + DigitValue(s[1])
  }

  function Minutes(s: string): nat
    requires WellFormed(s)
  {
    10 * DigitValue(s[3]) + DigitValue(s[4])
  }

  /** Minutes since midnight. */
  function MinuteOfDay(s: string): (m: nat)
    requires WellFormed(s)
    ensures m < 24 * 60
  {
    Hours(s) * 60 + Minutes(s)
  }

  /** Digit characters are ordered as the digits they stand for. */
  lemma DigitOrder(c: char, d: char)
    requires IsDigit(c) && IsDigit(d)
    ensures c < d <==> DigitValue(c) < DigitValue(d)
    ensures c == d <==> DigitValue(c) == DigitValue(d)
  {
  }

  /** Because both parts are zero-padded, comparing two well-formed times as
      strings orders them exactly as the clock does. */
  lemma StringOrderIsClockOrder(a: string, b: string)
    requires WellFormed(a) && WellFormed(b)
    ensures StrLess(a, b) <==> MinuteOfDay(a) < MinuteOfDay(b)
  {
    DigitOrder(a[0], b[0]);
    DigitOrder(a[1], b[1]);
    DigitOrder(a[3], b[3]);
    DigitOrder(a[4], b[4]);
    assert a[1..][1..] == a[2..] && b[1..][1..] == b[2..];
    assert a[2..][1..] == a[3..] && b[2..][1..] == b[3..];
    assert a[3..][1..] == a[4..] && b[3..][1..] == b[4..];
    assert a[4..][1..] == [] && b[4..][1..] == [];
    assert StrLess(a[4..], b[4..]) == (a[4] < b[4]);
    assert StrLess(a[3..], b[3..]) == (if a[3] != b[3] then a[3] < b[3] else StrLess(a[4..], b[4..]));
    assert StrLess(a[2..], b[2..]) == StrLess(a[3..], b[3..]);
    assert StrLess(a[1..], b[1..]) == (if a[1] != b[1] then a[1] < b[1] else StrLess(a[2..], b[2..]));
    assert StrLess(a, b) == (if a[0] != b[0] then a[0] < b[0] else StrLess(a[1..], b[1..]));
  }
}

=== FILE: options.dfy ===
/** An optional value: the model's rendering of JavaScript's `undefined`
    results (a `find` that matched nothing, a storage key that is unset). */
module Options {

  datatype Option<+T> = None | Some(value: T) {

    /** The wrapped value, or `default` when absent: the `x?.f || ""` idiom. */
    function GetOr(default: T): T
    {
      match this
      case Some(v) => v
      case None => default
    }
  }
}

=== FILE: registry.dfy ===
/** The in-memory mock registry (`db`): three collections, clients,
    appointments and services. Clients and appointments can be listed, looked
    up and created; services are read-only seed data. The module-level arrays
    are modelled as one immutable state value, `Db`, threaded through the
    operations. */
module Registry {
  import opened Options
  import opened Seqs

  datatype Cliente = Cliente(id: int, nome: string, telefone: string, email: string)

  /** A client's fields without the id (`Omit<Cliente, "id">`). */
  datatype ClienteFields = ClienteFields(nome: string, telefone: string, email: string)

  datatype Status = Agendado | Concluido | Cancelado

  datatype Agendamento = Agendamento(
    id: int, clienteId: int, servico: string, data: string,
    horario: string, valor: string, status: Status)

  /** An appointment's fields without the id (`Omit<Agendamento, "id">`). */
  datatype AgendamentoFields = AgendamentoFields(
    clienteId: int, servico: string, data: string,
    horario: string, valor: string, status: Status)

  datatype Servico = Servico(id: int, nome: string, duracao: string, valor: string)

  datatype Db = Db(clientes: seq<Cliente>, agendamentos: seq<Agendamento>, servicos: seq<Servico>)

  /** The ids of a collection are 1, 2, ..., n in position order. */
  predicate IdsSequential<T>(s: seq<T>, id: T -> int)
  {
    forall i :: 0 <= i < |s| ==> id(s[i]) == i + 1
  }

  function ClienteId(c: Cliente): int { c.id }
  function AgendamentoId(a: Agendamento): int { a.id }
  function ServicoId(s: Servico): int { s.id }

  /** The registry invariant: every collection is numbered 1..n in order. */
  predicate Wf(db: Db)
  {
    && IdsSequential(db.clientes, ClienteId)
    && IdsSequential(db.agendamentos, AgendamentoId)
    && IdsSequential(db.servicos, ServicoId)
  }

  function SeedClientes(): seq<Cliente>
  {
    [ Cliente(1, "Maria Silva", "(11) 99999-9999", "maria@email.com"),
      Cliente(2, "João Santos", "(11) 88888-8888", "joao@email.com") ]
  }

  function SeedAgendamentos(): seq<Agendamento>
  {
    [ Agendamento(1, 1, "Corte de Cabelo", "2024-03-20", "14:30", "R$ 50,00", Agendado),
      Agendamento(2, 2, "Barba", "2024-03-20", "15:30", "R$ 30,00", Agendado) ]
  }

  function SeedServicos(): seq<Servico>
  {
    [ Servico(1, "Corte de Cabelo", "30min", "R$ 50,00"),
      Servico(2, "Barba", "20min", "R$ 30,00"),
      Servico(3, "Corte e Barba", "50min", "R$ 70,00") ]
  }

  /** The registry as the module is loaded. */
  function Seed(): (db: Db)
    ensures Wf(db)
    ensures |db.clientes| == 2 && |db.agendamentos| == 2 && |db.servicos| == 3
  {
    Db(SeedClientes(), SeedAgendamentos(), SeedServicos())
  }

  // ---------------------------------------------------------------- clients

  /** `db.clientes.getAll()`: a shallow copy of the clients in insertion order. */
  function AllClientes(db: Db): (r: seq<Cliente>)
    ensures forall x :: x in r <==> x in db.clientes
    ensures Wf(db) ==> forall i :: 0 <= i < |r| ==> r[i].id == i + 1
  {
    db.clientes
  }

  function ClienteIdIs(id: int): Cliente -> bool
  {
    (c: Cliente) => c.id == id
  }

  /** `db.clientes.getById(id)`: the first client carrying `id`, if any. */
  function GetClienteById(db: Db, id: int): (r: Option<Cliente>)
    ensures FirstMatch(ClienteIdIs(id), db.clientes, r)
    ensures r.Some? ==> r.value in db.clientes && r.value.id == id
    ensures r.None? <==> forall i :: 0 <= i < |db.clientes| ==> db.clientes[i].id != id
  {
    FindFirst(ClienteIdIs(id), db.clientes)
  }

  /** `db.clientes.create(fields)`: the new client gets id `length + 1`, is
      appended, and is returned. No field is validated. */
  function CreateCliente(db: Db, fields: ClienteFields): (r: (Db, Cliente))
    ensures r.1.id == |db.clientes| + 1
    ensures r.1.nome == fields.nome && r.1.telefone == fields.telefone && r.1.email == fields.email
    ensures r.0.clientes == db.clientes + [r.1]
    ensures r.0.agendamentos == db.agendamentos && r.0.servicos == db.servicos
    ensures Wf(db) ==> Wf(r.0)
  {
    var c := Cliente(|db.clientes| + 1, fields.nome, fields.telefone, fields.email);
    (db.(clientes := db.clientes + [c]), c)
  }

  // ----------------------------------------------------------- appointments

  /** `db.agendamentos.getAll()`: a shallow copy of the appointments in insertion order. */
  function AllAgendamentos(db: Db): (r: seq<Agendamento>)
    ensures forall x :: x in r <==> x in db.agendamentos
    ensures Wf(db) ==> forall i :: 0 <= i < |r| ==> r[i].id == i + 1
  {
    db.agendamentos
  }

  function DataIs(data: string): Agendamento -> bool
  {
    (a: Agendamento) => a.data == data
  }

  /** `db.agendamentos.getByDate(data)`: exactly the appointments on `data`,
      as an order-preserving subsequence of all appointments. */
  function GetAgendamentosByDate(db: Db, data: string): (r: seq<Agendamento>)
    ensures SubseqOf(r, db.agendamentos)
    ensures forall i :: 0 <= i < |r| ==> r[i].data == data
    ensures forall i :: 0 <= i < |db.agendamentos| && db.agendamentos[i].data == data
              ==> db.agendamentos[i] in r
    ensures |r| == Count(DataIs(data), db.agendamentos)
  {
    Filter(DataIs(data), db.agendamentos)
  }

  /** `db.agendamentos.create(fields)`: same id policy as clients, and no
      check that `clienteId` names an existing client. */
  function CreateAgendamento(db: Db, fields: AgendamentoFields): (r: (Db, Agendamento))
    ensures r.1.id == |db.agendamentos| + 1
    ensures r.1.clienteId == fields.clienteId && r.1.servico == fields.servico
    ensures r.1.data == fields.data && r.1.horario == fields.horario
    ensures r.1.valor == fields.valor && r.1.status == fields.status
    ensures r.0.agendamentos == db.agendamentos + [r.1]
    ensures r.0.clientes == db.clientes && r.0.servicos == db.servicos
    ensures Wf(db) ==> Wf(r.0)
  {
    var a := Agendamento(|db.agendamentos| + 1, fields.clienteId, fields.servico,
                         fields.data, fields.horario, fields.valor, fields.status);
    (db.(agendamentos := db.agendamentos + [a]), a)
  }

  // --------------------------------------------------------------- services

  /** `db.servicos.getAll()`: a shallow copy of the services. */
  function AllServicos(db: Db): (r: seq<Servico>)
    ensures forall x :: x in r <==> x in db.servicos
    ensures Wf(db) ==> forall i :: 0 <= i < |r| ==> r[i].id == i + 1
  {
    db.servicos
  }

  function ServicoIdIs(id: int): Servico -> bool
  {
    (s: Servico) => s.id == id
  }

  /** `db.servicos.getById(id)`: the first service carrying `id`, if any. */
  function GetServicoById(db: Db, id: int): (r: Option<Servico>)
    ensures FirstMatch(ServicoIdIs(id), db.servicos, r)
    ensures r.Some? ==> r.value in db.servicos && r.value.id == id
    ensures r.None? <==> forall i :: 0 <= i < |db.servicos| ==> db.servicos[i].id != id
  {
    FindFirst(ServicoIdIs(id), db.servicos)
  }

  // ---------------------------------------------------------- state machine

  /** A mutation the registry offers. Services have none. */
  datatype Op = NewCliente(cliente: ClienteFields) | NewAgendamento(agendamento: AgendamentoFields)

  function Step(db: Db, op: Op): Db
  {
    match op
    case NewCliente(f) => CreateCliente(db, f).0
    case NewAgendamento(f) => CreateAgendamento(db, f).0
  }

  /** The registry after performing `ops` in order. */
  function Run(db: Db, ops: seq<Op>): Db
    decreases |ops|
  {
    if |ops| == 0 then db else Run(Step(db, ops[0]), ops[1..])
  }

  /** Ids in a sequentially numbered collection are strictly increasing, so
      no two records share one. */
  predicate StrictlyIncreasingIds<T>(s: seq<T>, id: T -> int)
  {
    forall i, j :: 0 <= i < j < |s| ==> id(s[i]) < id(s[j])
  }

  /** Whatever sequence of creates runs, every collection stays numbered
      1..n, so its ids are unique and strictly increasing; the services,
      having no mutator, are untouched; and nothing already stored changes. */
  lemma {:induction false} RunPreservesInvariant(db: Db, ops: seq<Op>)
    requires Wf(db)
    ensures Wf(Run(db, ops))
    ensures StrictlyIncreasingIds(Run(db, ops).clientes, ClienteId)
    ensures StrictlyIncreasingIds(Run(db, ops).agendamentos, AgendamentoId)
    ensures Run(db, ops).servicos == db.servicos
    ensures db.clientes <= Run(db, ops).clientes
    ensures db.agendamentos <= Run(db, ops).agendamentos
    decreases |ops|
  {
    if |ops| > 0 {
      var next := Step(db, ops[0]);
      RunPreservesInvariant(next, ops[1..]);
    }
  }

  /** Under the invariant, looking up id `k` is indexing at `k - 1`. */
  lemma GetClienteByIdIsIndex(db: Db, k: int)
    requires Wf(db)
    ensures 1 <= k <= |db.clientes| ==> GetClienteById(db, k) == Some(db.clientes[k - 1])
    ensures !(1 <= k <= |db.clientes|) ==> GetClienteById(db, k) == None
  {
  }

  /** Under the invariant, looking up service id `k` is indexing at `k - 1`. */
  lemma GetServicoByIdIsIndex(db: Db, k: int)
    requires Wf(db)
    ensures 1 <= k <= |db.servicos| ==> GetServicoById(db, k) == Some(db.servicos[k - 1])
    ensures !(1 <= k <= |db.servicos|) ==> GetServicoById(db, k) == None
  {
  }

  /** A client just created is found by its id, and every other lookup
      answers as before. */
  lemma CreateThenGetCliente(db: Db, fields: ClienteFields, k: int)
    requires Wf(db)
    ensures var (db', c) := CreateCliente(db, fields);
            && GetClienteById(db', c.id) == Some(c)
            && (k != c.id ==> GetClienteById(db', k) == GetClienteById(db, k))
  {
    var (db', c) := CreateCliente(db, fields);
    GetClienteByIdIsIndex(db', c.id);
    GetClienteByIdIsIndex(db', k);
    GetClienteByIdIsIndex(db, k);
  }

  /** Listing after a create gives the earlier listing plus the new record. */
  lemma CreateExtendsListings(db: Db, cf: ClienteFields, af: AgendamentoFields)
    ensures AllClientes(CreateCliente(db, cf).0) == AllClientes(db) + [CreateCliente(db, cf).1]
    ensures AllAgendamentos(CreateCliente(db, cf).0) == AllAgendamentos(db)
    ensures AllAgendamentos(CreateAgendamento(db, af).0) == AllAgendamentos(db) + [CreateAgendamento(db, af).1]
    ensures AllClientes(CreateAgendamento(db, af).0) == AllClientes(db)
    ensures AllServicos(CreateCliente(db, cf).0) == AllServicos(CreateAgendamento(db, af).0) == AllServicos(db)
  {
  }

  /** An appointment on another date does not show up in a date query, and
      one on the queried date is appended to its result. */
  lemma CreateAgendamentoThenByDate(db: Db, fields: AgendamentoFields, data: string)
    ensures var (db', a) := CreateAgendamento(db, fields);
            GetAgendamentosByDate(db', data)
              == GetAgendamentosByDate(db, data) + (if fields.data == data then [a] else [])
  {
    var (db', a) := CreateAgendamento(db, fields);
    FilterAppend(DataIs(data), db.agendamentos, a);
  }

  lemma {:induction false} FilterAppend<T>(p: T -> bool, s: seq<T>, x: T)
    ensures Filter(p, s + [x]) == Filter(p, s) + (if p(x) then [x] else [])
  {
    if |s| == 0 {
      assert s + [x] == [x];
    } else {
      assert (s + [x])[1..] == s[1..] + [x];
      FilterAppend(p, s[1..], x);
    }
  }

  /** Creating an appointment never checks its client: one naming a client
      that does not exist is stored all the same. */
  lemma NoReferentialCheck(db: Db, fields: AgendamentoFields)
    requires GetClienteById(db, fields.clienteId).None?
    ensures var (db', a) := CreateAgendamento(db, fields);
            && a in db'.agendamentos && a.clienteId == fields.clienteId
            && GetClienteById(db', a.clienteId).None?
  {
  }
}

=== FILE: seqs.dfy ===
/** Sequence combinators shared by the registry, the service catalogue and the
    booking form: JavaScript's `Array.prototype.filter` and `find`, together
    with the specifications they meet. */
module Seqs {
  import opened Options

  /** `sub` can be obtained from `s` by deleting elements: an order-preserving
      subsequence. Matching is greedy, which is complete for subsequences. */
  predicate SubseqOf<T(==)>(sub: seq<T>, s: seq<T>)
    decreases |s|
  {
    if |sub| == 0 then true
    else if |s| == 0 then false
    else if sub[0] == s[0] then SubseqOf(sub[1..], s[1..])
    else SubseqOf(sub, s[1..])
  }

  /** How many elements of `s` satisfy `p`. */
  function Count<T>(p: T -> bool, s: seq<T>): (n: nat)
    ensures n <= |s|
  {
    if |s| == 0 then 0 else (if p(s[0]) then 1 else 0) + Count(p, s[1..])
  }

  /** `s.filter(p)`: the elements satisfying `p`, in their original order. */
  function Filter<T(==)>(p: T -> bool, s: seq<T>): (r: seq<T>)
    ensures SubseqOf(r, s)
    ensures forall i :: 0 <= i < |r| ==> p(r[i])
    ensures forall i :: 0 <= i < |s| && p(s[i]) ==> s[i] in r
    ensures |r| == Count(p, s)
  {
    if |s| == 0 then []
    else
      var rest := Filter(p, s[1..]);
      assert forall i :: 1 <= i < |s| ==> s[i] == s[1..][i - 1];
      if p(s[0]) then
        assert ([s[0]] + rest)[1..] == rest;
        [s[0]] + rest
      else
        assert |rest| > 0 ==> rest[0] != s[0];
        rest
  }

  /** `r` is what `s.find(p)` returns: the first element satisfying `p`, or
      nothing when no element does. */
  predicate FirstMatch<T(==)>(p: T -> bool, s: seq<T>, r: Option<T>)
  {
    match r
    case None => forall i :: 0 <= i < |s| ==> !p(s[i])
    case Some(x) =>
      exists i :: 0 <= i < |s| && s[i] == x && p(x) && forall j :: 0 <= j < i ==> !p(s[j])
  }

  /** `s.find(p)`: a linear search from the front. */
  function FindFirst<T(==)>(p: T -> bool, s: seq<T>): (r: Option<T>)
    ensures FirstMatch(p, s, r)
  {
    if |s| == 0 then None
    else if p(s[0]) then
      Some(s[0])
    else
      var r := FindFirst(p, s[1..]);
      if r.None? then r
      else
        var i :| 0 <= i < |s[1..]| && s[1..][i] == r.value && p(r.value)
                 && forall j :: 0 <= j < i ==> !p(s[1..][j]);
        assert s[i + 1] == r.value && forall j :: 0 <= j < i + 1 ==> !p(s[j]);
        r
  }

  /** Every sequence is a subsequence of itself. */
  lemma {:induction false} SubseqRefl<T>(s: seq<T>)
    ensures SubseqOf(s, s)
  {
    if |s| > 0 {
      SubseqRefl(s[1..]);
    }
  }

  /** A subsequence made only of `p`-elements is no longer than the number of
      `p`-elements it was drawn from. */
  lemma {:induction false} SubseqCountBound<T>(p: T -> bool, r: seq<T>, s: seq<T>)
    requires SubseqOf(r, s)
    requires forall i :: 0 <= i < |r| ==> p(r[i])
    ensures |r| <= Count(p, s)
    decreases |s|
  {
    if |r| == 0 {
    } else if r[0] == s[0] {
      SubseqCountBound(p, r[1..], s[1..]);
    } else {
      SubseqCountBound(p, r, s[1..]);
    }
  }

  /** When every element satisfies `p`, all of them are counted. */
  lemma {:induction false} CountAll<T>(p: T -> bool, s: seq<T>)
    requires forall i :: 0 <= i < |s| ==> p(s[i])
    ensures Count(p, s) == |s|
  {
    if |s| > 0 {
      CountAll(p, s[1..]);
    }
  }

  /** The filter is the only order-preserving subsequence that keeps exactly
      as many `p`-elements as `s` has: keeping, order and count pin it down. */
  lemma {:induction false} FilterUnique<T>(p: T -> bool, s: seq<T>, r: seq<T>)
    requires SubseqOf(r, s)
    requires forall i :: 0 <= i < |r| ==> p(r[i])
    requires |r| == Count(p, s)
    ensures r == Filter(p, s)
    decreases |s|
  {
    if |s| == 0 {
    } else if |r| > 0 && r[0] == s[0] {
      FilterUnique(p, s[1..], r[1..]);
      assert r == [r[0]] + r[1..];
    } else {
      SubseqCountBound(p, r, s[1..]);
      FilterUnique(p, s[1..], r);
    }
  }

  /** Filtering twice with the same predicate is filtering once. */
  lemma FilterIdempotent<T>(p: T -> bool, s: seq<T>)
    ensures Filter(p, Filter(p, s)) == Filter(p, s)
  {
  }

  /** A predicate that holds everywhere filters nothing out. */
  lemma FilterKeepsAll<T>(p: T -> bool, s: seq<T>)
    requires forall i :: 0 <= i < |s| ==> p(s[i])
    ensures Filter(p, s) == s
  {
    SubseqRefl(s);
    CountAll(p, s);
    FilterUnique(p, s, s);
  }

  /** Two filters in a row are one filter with the conjoined predicate. */
  lemma {:induction false} FilterFusion<T>(p: T -> bool, q: T -> bool, both: T -> bool, s: seq<T>)
    requires forall x :: both(x) == (p(x) && q(x))
    ensures Filter(q, Filter(p, s)) == Filter(both, s)
  {
    if |s| > 0 {
      FilterFusion(p, q, both, s[1..]);
    }
  }

  /** Filters with pointwise-equal predicates agree. */
  lemma {:induction false} FilterCongruent<T>(p: T -> bool, q: T -> bool, s: seq<T>)
    requires forall x :: p(x) == q(x)
    ensures Filter(p, s) == Filter(q, s)
  {
    if |s| > 0 {
      FilterCongruent(p, q, s[1..]);
    }
  }
}

=== FILE: text.dfy ===
/** String helpers the pages rely on: decimal digits, the way JavaScript
    renders and parses whole numbers, ASCII lower-casing, `includes`, and
    `<` on strings, compared character by character. */
module Text {
  import opened Options

  predicate IsDigit(c: char)
  {
    '0' <= c <= '9'
  }

  function DigitValue(c: char): (d: nat)
    requires IsDigit(c)
    ensures d < 10
  {
    (c as int) - ('0' as int)
  }

  function DigitChar(d: nat): (c: char)
    requires d < 10
    ensures IsDigit(c) && DigitValue(c) == d
  {
    (('0' as int) + d) as char
  }

  predicate AllDigits(s: string)
  {
    forall i :: 0 <= i < |s| ==> IsDigit(s[i])
  }

  /** The number a string of decimal digits denotes (most significant first). */
  function DecimalValue(s: string): nat
    requires AllDigits(s)
  {
    if |s| == 0 then 0 else 10 * DecimalValue(s[..|s| - 1]) + DigitValue(s[|s| - 1])
  }

  /** How a whole, non-negative JavaScript number is rendered by `${n}` or
      `String(n)`: its shortest decimal representation. */
  function NatToString(n: nat): (s: string)
    ensures |s| >= 1 && AllDigits(s)
    ensures |s| > 1 ==> s[0] != '0'
  {
    if n < 10 then [DigitChar(n)]
    else NatToString(n / 10) + [DigitChar(n % 10)]
  }

  /** How a whole JavaScript number of either sign is rendered. */
  function IntToString(n: int): (s: string)
    ensures |s| >= 1
    ensures n >= 0 ==> AllDigits(s)
    ensures n < 0 ==> s[0] == '-' && AllDigits(s[1..])
    ensures n >= 0 ==> DecimalValue(s) == n
    ensures n < 0 ==> DecimalValue(s[1..]) == -n
  {
    if n < 0 then
      DecimalRoundTrip(-n);
      assert ("-" + NatToString(-n))[1..] == NatToString(-n);
      "-" + NatToString(-n)
    else
      DecimalRoundTrip(n);
      NatToString(n)
  }

  /** Reading back a rendered number gives the number. */
  lemma {:induction false} DecimalRoundTrip(n: nat)
    ensures DecimalValue(NatToString(n)) == n
  {
    if n >= 10 {
      var s := NatToString(n);
      assert s[..|s| - 1] == NatToString(n / 10);
      DecimalRoundTrip(n / 10);
    }
  }

  /** Distinct numbers render as distinct strings. */
  lemma NatToStringInjective(m: nat, n: nat)
    requires NatToString(m) == NatToString(n)
    ensures m == n
  {
    DecimalRoundTrip(m);
    DecimalRoundTrip(n);
  }

  /** `Number(s)` for the strings a form can hand it: the empty string is 0,
      a run of decimal digits is its value, anything else is NaN (`None`). */
  function JsNumber(s: string): (r: Option<int>)
    ensures s == "" ==> r == Some(0)
    ensures s != "" && AllDigits(s) ==> r == Some(DecimalValue(s))
    ensures !AllDigits(s) ==> r == None
  {
    if s == "" then Some(0)
    else if AllDigits(s) then Some(DecimalValue(s))
    else None
  }

  /** `Number(String(n)) === n` for every whole non-negative number. */
  lemma JsNumberOfRendered(n: nat)
    ensures JsNumber(NatToString(n)) == Some(n)
  {
    DecimalRoundTrip(n);
  }

  /** Length of the longest prefix of `s` made of decimal digits. */
  function DigitPrefixLen(s: string): (n: nat)
    ensures n <= |s|
    ensures AllDigits(s[..n])
    ensures n < |s| ==> !IsDigit(s[n])
  {
    if |s| == 0 || !IsDigit(s[0]) then 0
    else
      var k := DigitPrefixLen(s[1..]);
      assert s[..k + 1] == [s[0]] + s[1..][..k];
      k + 1
  }

  /** A digit run followed by a non-digit (or nothing) is read back whole. */
  lemma DigitPrefixOfConcat(d: string, t: string)
    requires AllDigits(d)
    requires |t| == 0 || !IsDigit(t[0])
    ensures DigitPrefixLen(d + t) == |d|
    ensures (d + t)[..|d|] == d && (d + t)[|d|..] == t
  {
  }

  /** ASCII `toLowerCase` of one character. */
  function LowerChar(c: char): char
  {
    if 'A' <= c <= 'Z' then ((c as int) + 32) as char else c
  }

  /** `s.toLowerCase()`, restricted to ASCII letters. */
  function ToLower(s: string): (r: string)
    ensures |r| == |s|
    ensures forall i :: 0 <= i < |r| ==> !('A' <= r[i] <= 'Z')
    ensures forall i :: 0 <= i < |s| && !('A' <= s[i] <= 'Z') ==> r[i] == s[i]
    ensures forall i :: 0 <= i < |s| && 'A' <= s[i] <= 'Z' ==> r[i] as int == s[i] as int + 32
  {
    seq(|s|, i requires 0 <= i < |s| => LowerChar(s[i]))
  }

  /** `needle` occurs in `hay` starting at position `i`. */
  predicate OccursAt(hay: string, needle: string, i: nat)
  {
    i + |needle| <= |hay| && hay[i..i + |needle|] == needle
  }

  /** `hay.includes(needle)`: a scan over every start position. */
  function Contains(hay: string, needle: string): (b: bool)
    ensures b <==> exists i: nat :: OccursAt(hay, needle, i)
    decreases |hay|
  {
    if |needle| > |hay| then
      assert forall i: nat :: !OccursAt(hay, needle, i);
      false
    else if hay[..|needle|] == needle then
      assert OccursAt(hay, needle, 0);
      true
    else
      var b := Contains(hay[1..], needle);
      assert forall i: nat :: OccursAt(hay[1..], needle, i) <==> OccursAt(hay, needle, i + 1) by {
        forall i: nat ensures OccursAt(hay[1..], needle, i) <==> OccursAt(hay, needle, i + 1) {
          if i + |needle| <= |hay[1..]| {
            assert hay[1..][i..i + |needle|] == hay[i + 1..i + 1 + |needle|];
          }
        }
      }
      assert b ==> exists i: nat :: OccursAt(hay, needle, i) by {
        if b {
          var i: nat :| OccursAt(hay[1..], needle, i);
          assert OccursAt(hay, needle, i + 1);
        }
      }
      assert (exists i: nat :: OccursAt(hay, needle, i)) ==> b by {
        if exists i: nat :: OccursAt(hay, needle, i) {
          var i: nat :| OccursAt(hay, needle, i);
          assert i != 0;
          assert OccursAt(hay[1..], needle, i - 1);
        }
      }
      b
  }

  /** JavaScript's `a < b` on strings: lexicographic on characters, a proper
      prefix coming first. JavaScript compares UTF-16 code units; the two
      orders agree on every string this model compares (times and dates). */
  predicate StrLess(a: string, b: string)
  {
    if |a| == 0 then |b| > 0
    else if |b| == 0 then false
    else if a[0] != b[0] then a[0] < b[0]
    else StrLess(a[1..], b[1..])
  }

  /** `<` on strings is transitive. */
  lemma {:induction false} StrLessTransitive(a: string, b: string, c: string)
    requires StrLess(a, b) && StrLess(b, c)
    ensures StrLess(a, c)
  {
    if |a| > 0 && a[0] == b[0] && b[0] == c[0] {
      StrLessTransitive(a[1..], b[1..], c[1..]);
    }
  }

  /** `<` on strings is irreflexive, so a strictly increasing list has no
      repeated entries. */
  lemma {:induction false} StrLessIrreflexive(a: string)
    ensures !StrLess(a, a)
  {
    if |a| > 0 {
      StrLessIrreflexive(a[1..]);
    }
  }
}

=== FILE: workinghours.dfy ===
/** The weekly working-hours settings page: one entry per weekday, each
    edited one field at a time, initialised from the saved configuration or
    from the default. The saved configuration is what the browser's storage
    holds under the page's key, already decoded: `None` when nothing (or an
    empty string) is stored. */
module WorkingHours {
  import opened Options
  import ClockTime

  datatype DayConfig = DayConfig(ativo: bool, inicio: string, fim: string, intervalo: int)

  /** The weekdays, Sunday first; entry `i` of a configuration is day `i`. */
  function DiasSemana(): seq<string>
  {
    ["Domingo", "Segunda", "Terça", "Quarta", "Quinta", "Sexta", "Sábado"]
  }

  /** `configPadrao`: every weekday closed, 09:00 to 18:00, 30-minute slots. */
  function DefaultConfig(): (c: seq<DayConfig>)
    ensures |c| == |DiasSemana()| == 7
    ensures forall i :: 0 <= i < |c| ==>
              !c[i].ativo && c[i].inicio == "09:00" && c[i].fim == "18:00" && c[i].intervalo == 30
  {
    seq(|DiasSemana()|, _ => DayConfig(false, "09:00", "18:00", 30))
  }

  /** The default opening time is a valid time before the closing time. */
  lemma DefaultHoursOrdered()
    ensures forall i :: 0 <= i < |DefaultConfig()| ==>
              && ClockTime.WellFormed(DefaultConfig()[i].inicio)
              && ClockTime.WellFormed(DefaultConfig()[i].fim)
              && ClockTime.MinuteOfDay(DefaultConfig()[i].inicio) < ClockTime.MinuteOfDay(DefaultConfig()[i].fim)
  {
  }

  /** The state the page starts in: the saved configuration when one exists,
      otherwise the default. */
  function InitialConfig(saved: Option<seq<DayConfig>>): (c: seq<DayConfig>)
    ensures saved.Some? ==> c == saved.value
    ensures saved.None? ==> c == DefaultConfig()
  {
    match saved
    case Some(s) => s
    case None => DefaultConfig()
  }

  /** The page's mount effect: replace the state by the saved configuration
      when one exists. */
  function MountEffect(state: seq<DayConfig>, saved: Option<seq<DayConfig>>): (r: seq<DayConfig>)
    ensures saved.Some? ==> r == InitialConfig(saved)
    ensures saved.None? ==> r == state
  {
    if saved.Some? then saved.value else state
  }

  /** `handleSave`: what the storage holds afterwards. */
  function Save(config: seq<DayConfig>): (stored: Option<seq<DayConfig>>)
    ensures stored.Some? && InitialConfig(stored) == config
  {
    Some(config)
  }

  /** The mount effect re-applies what the initial state already chose, and a
      saved configuration is what the next visit starts from. */
  lemma InitialStateIsStable(saved: Option<seq<DayConfig>>, config: seq<DayConfig>)
    ensures MountEffect(InitialConfig(saved), saved) == InitialConfig(saved)
    ensures MountEffect(InitialConfig(Save(config)), Save(config)) == config
  {
  }

  /** One of the four inputs of a day card, with the value it was given. */
  datatype Edit =
    | SetAtivo(checked: bool)
    | SetInicio(inicio: string)
    | SetFim(fim: string)
    | SetIntervalo(minutes: int)

  datatype Field = Ativo | Inicio | Fim | Intervalo

  /** The field an edit writes. */
  function FieldOf(e: Edit): Field
  {
    match e
    case SetAtivo(_) => Ativo
    case SetInicio(_) => Inicio
    case SetFim(_) => Fim
    case SetIntervalo(_) => Intervalo
  }

  /** `d` holds the value `e` writes. */
  predicate Holds(d: DayConfig, e: Edit)
  {
    match e
    case SetAtivo(b) => d.ativo == b
    case SetInicio(t) => d.inicio == t
    case SetFim(t) => d.fim == t
    case SetIntervalo(m) => d.intervalo == m
  }

  /** `d` and `d'` agree on every field `e` does not write. */
  predicate SameOtherFields(d: DayConfig, d': DayConfig, e: Edit)
  {
    && (e.SetAtivo? || d.ativo == d'.ativo)
    && (e.SetInicio? || d.inicio == d'.inicio)
    && (e.SetFim? || d.fim == d'.fim)
    && (e.SetIntervalo? || d.intervalo == d'.intervalo)
  }

  /** One handler of day `i`: copy the list, set one field of entry `i`. */
  function ApplyEdit(config: seq<DayConfig>, i: nat, e: Edit): (r: seq<DayConfig>)
    requires i < |config|
    ensures |r| == |config|
    ensures Holds(r[i], e) && SameOtherFields(config[i], r[i], e)
    ensures forall j :: 0 <= j < |config| && j != i ==> r[j] == config[j]
  {
    var d := config[i];
    var d' := match e
      case SetAtivo(b) => d.(ativo := b)
      case SetInicio(t) => d.(inicio := t)
      case SetFim(t) => d.(fim := t)
      case SetIntervalo(m) => d.(intervalo := m);
    config[i := d']
  }

  /** The edit that would write back the value `e` overwrote. */
  function Undo(d: DayConfig, e: Edit): Edit
  {
    match e
    case SetAtivo(_) => SetAtivo(d.ativo)
    case SetInicio(_) => SetInicio(d.inicio)
    case SetFim(_) => SetFim(d.fim)
    case SetIntervalo(_) => SetIntervalo(d.intervalo)
  }

  /** Writing the old value back restores the configuration. */
  lemma EditUndo(config: seq<DayConfig>, i: nat, e: Edit)
    requires i < |config|
    ensures ApplyEdit(ApplyEdit(config, i, e), i, Undo(config[i], e)) == config
  {
  }

  /** Repeating an edit changes nothing more. */
  lemma EditIdempotent(config: seq<DayConfig>, i: nat, e: Edit)
    requires i < |config|
    ensures ApplyEdit(ApplyEdit(config, i, e), i, e) == ApplyEdit(config, i, e)
  {
  }

  /** Edits to different days, or to different fields of one day, do not
      interfere: their order does not matter. */
  lemma EditsCommute(config: seq<DayConfig>, i: nat, e: Edit, j: nat, f: Edit)
    requires i < |config| && j < |config|
    requires i != j || FieldOf(e) != FieldOf(f)
    ensures ApplyEdit(ApplyEdit(config, i, e), j, f) == ApplyEdit(ApplyEdit(config, j, f), i, e)
  {
  }

  /** The page renders one card per weekday and reads `config[index]` for
      each, so it needs at least that many entries. */
  predicate Renderable(config: seq<DayConfig>)
  {
    |config| >= |DiasSemana()|
  }

  /** Any sequence of edits keeps the list renderable and its length fixed. */
  lemma {:induction false} EditsPreserveShape(config: seq<DayConfig>, edits: seq<(nat, Edit)>)
    requires forall k :: 0 <= k < |edits| ==> edits[k].0 < |config|
    ensures |ApplyEdits(config, edits)| == |config|
    ensures Renderable(config) ==> Renderable(ApplyEdits(config, edits))
    decreases |edits|
  {
    if |edits| > 0 {
      var next := ApplyEdit(config, edits[0].0, edits[0].1);
      EditsPreserveShape(next, edits[1..]);
    }
  }

  /** The configuration after a sequence of handler calls. */
  function ApplyEdits(config: seq<DayConfig>, edits: seq<(nat, Edit)>): seq<DayConfig>
    requires forall k :: 0 <= k < |edits| ==> edits[k].0 < |config|
    decreases |edits|
  {
    if |edits| == 0 then config
    else ApplyEdits(ApplyEdit(config, edits[0].0, edits[0].1), edits[1..])
  }
}
